=== FILE: README.md ===
# Temperature-sweep client: response extraction and turn orchestration in Dafny

The client reads a prompt from the console and sends it to the OpenAI
Responses API three times, at temperatures 0.0, 0.7 and 1.2. If no answer
reports that the model rejects `temperature`, it sends a fourth call that asks
the model to compare its three answers. Every reply goes through
`parseOutputText`, which turns the JSON reply into one display string:

1. an API error message;
2. otherwise the top-level `output_text`;
3. otherwise the text fragments found in the `output` array;
4. otherwise a diagnostic naming `status` and the number of `output` items.

This project models that core as pure functions over an immutable JSON tree
and proves what the code promises.

Modules, leaf to root:

- `Wrappers` (`wrappers.dfy`): `Option` stands for Kotlin's nullable values. `Result` stands for a value or the exception that replaced it.
- `Json` (`json.dfy`): the JSON element tree. An object is an association list, numbers keep their literal text, and `Get` is member lookup (the last binding of a key wins, as in a parsed object).
- `Text` (`text.dfy`): `isBlank`, `trim` and JVM whitespace, ASCII case folding, case-insensitive `indexOf`/`contains`, and decimal formatting of integers with its inverse. It also defines `Join`, one text per element concatenated in order.
- `Extract` (`extract.dfy`): `extractTextValue` (`Resolve`) and `parseOutputText`. The library exceptions (`.jsonObject`, `.jsonArray`, `.jsonPrimitive` on the wrong kind of element) become `Failure` values, raised at the point the code reaches them.
- `ExtractProperties` (`extract_properties.dfy`): priority, concatenation and diagnostic lemmas. It also has the scan of `output` written as the original's loops (`ScanOutput`, `ScanContent`), proved equal to the fragment-wise definition, and the worked examples.
- `Request` (`request.dfy`): the request object built in `requestResponse`. It can be decoded back to its arguments, and `RequestResponse` is the call through an abstract `Requester`.
- `Sweep` (`sweep.dfy`): the three sweep calls, the unsupported-temperature gate, `packedResults` and the analysis call. `RunTurn` records every call issued in a turn, in order.
- `Session` (`session.dfy`): input-line classification and the `while (true)` loop of `main` over a finite list of input lines.

The HTTP exchange is a parameter. `Requester` is a total function from a
request object to a response tree, or `None` when the call fails or the body
is not JSON. The orchestration sees it through `Caller`, a function from a
request to the extracted text or a failure; `Sweep.CallThrough(requester)`
connects the two.

Where the code differs from a plain reading of its intent, the model follows the code:

- A content part falls back to `value` when its `text` resolves to nothing. That covers an absent `text`, a JSON null, an array, or an object without `value`. It does not happen when `text` resolves to the empty string.
- An `output` (or a message's `content`) that is present but not an array raises. This includes JSON null. It is not skipped like an absent one.
- A `status` that is an object or array raises. All of these failures happen only if the earlier steps produced no text: a non-blank error message or `output_text` wins even over an `output` that would raise.
- `type` members are themselves resolved through `value` wrappers before comparison.
- A non-blank error message takes priority over a non-blank `output_text`.
- At end of input `readlnOrNull()` returns null, which is classified as a blank line. The real loop therefore re-prompts forever. The model runs over a finite list of lines and ends with `EndOfInput` when the list runs out.

## Model

| member | source | states |
|---|---|---|
| Text.Trim | app/src/main/kotlin/App.kt:44 | the trimmed line is the slice of the input that starts after its leading whitespace and is followed only by whitespace; when non-empty it neither starts nor ends with whitespace |
| Text.TrimIsSlice | app/src/main/kotlin/App.kt:44 | any slice bounded by non-whitespace and surrounded only by whitespace is exactly what trimming returns |
| Text.BlankIffTrimEmpty | app/src/main/kotlin/App.kt:46 | a line is blank exactly when trimming leaves the empty string, so the blank test after trimming is an emptiness test |
| Text.TrimIdempotent | app/src/main/kotlin/App.kt:44 | trimming an already trimmed prompt changes nothing |
| Text.IndexOfIgnoreCase | app/src/main/kotlin/App.kt:233 | the result is the first position from which the pattern matches ignoring case, or -1 exactly when no position matches |
| Text.IndexOfFindsOccurrence | app/src/main/kotlin/App.kt:233 | `contains(..., ignoreCase = true)` as an index search agrees with "the pattern occurs somewhere, ignoring case" |
| Text.ContainsIgnoresCase | app/src/main/kotlin/App.kt:232-234 | two texts that differ only in letter case contain the pattern alike |
| Text.DigitsValueOfNatToString | app/src/main/kotlin/App.kt:196 | the decimal text printed for the item count reads back as the count |
| Text.ParseIntToString | app/src/main/kotlin/App.kt:96 | the integer written for `max_output_tokens` reads back as the same integer |
| Text.JoinAppend | app/src/main/kotlin/App.kt:119-125 | appending per element in order: the text of two runs of elements is the text of each concatenated |
| Extract.Content | app/src/main/kotlin/App.kt:240 | a primitive's content is present exactly for strings, numbers and booleans, and absent for null, arrays and objects |
| Extract.Resolve | app/src/main/kotlin/App.kt:238-241 | `extractTextValue` on a present element; its meaning is stated by `ResolveFollowsValueChain` and `ResolvedTextHasValueChain` (both directions) and `NullAndArrayResolveToNothing` |
| Extract.ExtractTextValue | app/src/main/kotlin/App.kt:237 | an absent element resolves to nothing |
| Extract.ResolveFollowsValueChain | app/src/main/kotlin/App.kt:236-242 | for any depth n, if following `value` n times reaches a non-object, resolving gives that element's primitive content |
| Extract.ResolvedTextHasValueChain | app/src/main/kotlin/App.kt:236-242 | every resolved text comes from such a chain of `value` members ending at a string, number or boolean |
| Extract.NullAndArrayResolveToNothing | app/src/main/kotlin/App.kt:240 | JSON null and arrays resolve to nothing, directly or as an object's `value` |
| Extract.ErrorMessage | app/src/main/kotlin/App.kt:159 | `error.message`, read only when `error` is an object; stated by `ApiErrorTakesPriority` and `NonObjectErrorIgnored` |
| Extract.PartFragment | app/src/main/kotlin/App.kt:182-188 | one content part's fragment; stated by `PartPrefersText` and `OtherPartContributesNothing` |
| Extract.ItemFragment | app/src/main/kotlin/App.kt:172-189 | one `output` element's fragment; it raises exactly when the element is a `message` whose `content` is present but not an array, and then with `ContentNotArray` |
| Extract.OutputText | app/src/main/kotlin/App.kt:169-191 | the scan of `output`, which can only raise `ContentNotArray`; its concatenation law, the exact raising condition and the loop form are `OutputTextAppend`, `OutputTextRaisesIff` and `ScanOutput` |
| Extract.Answer | app/src/main/kotlin/App.kt:169-191 | the `buildString` buffer, empty when `output` is absent; it raises only `OutputNotArray` or `ContentNotArray` |
| Extract.StatusText | app/src/main/kotlin/App.kt:194 | raises exactly when `status` is an object or array, with `StatusNotPrimitive`; `StatusNullWhenAbsentOrNull` states the `null` cases |
| Extract.OutputSize | app/src/main/kotlin/App.kt:195 | the `output` size printed in the diagnostic; stated by `OutputSizeCountsEveryElement` and `OutputSizeZeroWhenAbsent` |
| Extract.Diagnostic | app/src/main/kotlin/App.kt:196 | the diagnostic is never blank; its layout is stated by `DiagnosticReportsCount` |
| Extract.ParseOutputText | app/src/main/kotlin/App.kt:157-197 | a returned text is never blank; it never raises a transport failure; a non-object body always raises `RootNotObject`, and no other body does; the priority lemmas below and `RaisesOnlyOnMalformedMembers` state the result branch by branch |
| ExtractProperties.ApiErrorTakesPriority | app/src/main/kotlin/App.kt:159-162 | an object `error` whose `message` resolves to non-blank m gives exactly the API-error prefix followed by m, whatever the other members hold |
| ExtractProperties.NonObjectErrorIgnored | app/src/main/kotlin/App.kt:159 | responses agreeing on every member but a non-object `error` give the same result |
| ExtractProperties.OutputTextTakesPriority | app/src/main/kotlin/App.kt:164-167 | without an error message, a non-blank resolved `output_text` is returned verbatim and `output` is not consulted |
| ExtractProperties.AnswerReturnedVerbatim | app/src/main/kotlin/App.kt:192 | a non-blank scanned answer is returned unchanged, surrounding whitespace included |
| ExtractProperties.BlankAnswerGivesDiagnostic | app/src/main/kotlin/App.kt:192-196 | when no source yields non-blank text the result is the diagnostic built from `status` and the `output` element count |
| ExtractProperties.StatusNullWhenAbsentOrNull | app/src/main/kotlin/App.kt:194 | an absent or JSON-null `status` is reported as `null` |
| ExtractProperties.OutputSizeCountsEveryElement | app/src/main/kotlin/App.kt:195 | the reported item count is the length of `output`, non-objects included |
| ExtractProperties.OutputSizeZeroWhenAbsent | app/src/main/kotlin/App.kt:195 | an absent `output` is reported as zero items |
| ExtractProperties.DiagnosticReportsCount | app/src/main/kotlin/App.kt:196 | the diagnostic starts with its fixed prefix, the status and `, output_items=`, ends with `)`, and the digits between read back as the count, with no leading zero |
| ExtractProperties.RaisesOnlyOnMalformedMembers | app/src/main/kotlin/App.kt:157-197 | a response object raises exactly when error message and `output_text` are blank and then `output` is present but not an array, or holds a message whose `content` is not an array, or the answer is blank and `status` is an object or array; the exception names which of the three |
| ExtractProperties.OutputTextAppend | app/src/main/kotlin/App.kt:169-191 | the scan of two runs of items is the concatenation of their texts with no separator, and raises exactly when the first run raises or, if not, the second |
| ExtractProperties.OutputTextRaisesIff | app/src/main/kotlin/App.kt:170-180 | the scan of `output` raises exactly when some element is a `message` whose `content` is present but not an array (JSON null included), and then with `ContentNotArray` |
| ExtractProperties.PartsTextAppend | app/src/main/kotlin/App.kt:181-189 | content-part fragments are concatenated in order with no separator |
| ExtractProperties.IgnoredItemContributesNothing | app/src/main/kotlin/App.kt:172-180 | non-objects, items of another type, and messages without `content` contribute the empty text |
| ExtractProperties.IgnoredItemAnywhere | app/src/main/kotlin/App.kt:171-179 | such an item inserted anywhere in `output` leaves the scan unchanged |
| ExtractProperties.PartPrefersText | app/src/main/kotlin/App.kt:184-187 | for `output_text`/`text` parts, a `text` that resolves (even to the empty string) is used; otherwise `value`, or nothing |
| ExtractProperties.OtherPartContributesNothing | app/src/main/kotlin/App.kt:182-184 | non-object parts and parts of other types contribute nothing |
| ExtractProperties.ScanContent | app/src/main/kotlin/App.kt:181-189 | the inner loop over content parts builds exactly the in-order concatenation of the part fragments |
| ExtractProperties.ScanOutput | app/src/main/kotlin/App.kt:169-191 | the loop over `output` either builds exactly the fragment-wise answer or raises exactly the exception the fragment-wise scan raises |
| ExtractProperties.MessageTextExample | app/src/main/kotlin/App.kt:178-189 | a message with one `text` part `hello` yields `hello` |
| ExtractProperties.ConcatenationExample | app/src/main/kotlin/App.kt:171-176 | two `output_text` items `A` and `B` yield `AB` |
| ExtractProperties.EmptyOutputExample | app/src/main/kotlin/App.kt:192-196 | an empty `output` without `status` yields the diagnostic with `status=null, output_items=0` |
| ExtractProperties.ErrorBeatsMalformedOutputExample | app/src/main/kotlin/App.kt:157-170 | a non-array `output` raises, but not when a non-blank error message is present |
| ExtractProperties.NestedValueExample | app/src/main/kotlin/App.kt:164-167 | a top-level `output_text` wrapped in two `value` objects is unwrapped |
| Request.ToJson | app/src/main/kotlin/App.kt:91-97 | the request object always binds `model` and `input`; it binds `instructions`, `temperature`, `max_output_tokens` exactly when the argument is non-null; no member is null; keys are distinct |
| Request.RequestFieldsLookup | app/src/main/kotlin/App.kt:91-97 | each key of the request object holds the encoding of its argument, and the optional keys are absent when the argument is |
| Request.RequestFieldsWellFormed | app/src/main/kotlin/App.kt:91-97 | no member of the request object is null and no key occurs twice |
| Request.RequestRoundTrip | app/src/main/kotlin/App.kt:91-97 | decoding the request object gives back the arguments it was built from; an omitted optional argument decodes as absent, not as null |
| Request.RequestResponse | app/src/main/kotlin/App.kt:83-111 | sends the request object built from the arguments; when a reply arrives the result is `ParseOutputText` of it; a transport failure is reported exactly when the exchange failed, and text that comes back is never blank |
| Sweep.IsUnsupportedTemperatureError | app/src/main/kotlin/App.kt:232-234 | the detector fires exactly when `Unsupported parameter: 'temperature'` occurs in the text, ignoring case |
| Sweep.AnyUnsupported | app/src/main/kotlin/App.kt:65 | the gate's `results.any { ... }`; `RunTurn` and `AnalysisIssuedIffTemperatureSupported` state that the analysis call is issued exactly when no result trips the detector |
| Sweep.ResultBlock | app/src/main/kotlin/App.kt:121-123 | the three lines one result contributes; stated by `PackThreeResults` |
| Sweep.SweepRequest | app/src/main/kotlin/App.kt:55-61 | the sweep call's arguments: the prompt as input, no instructions, the temperature, 500 tokens; `RunSweep` and `RunTurn` state that the calls issued are these |
| Sweep.PackResults | app/src/main/kotlin/App.kt:119-125 | `packedResults`; stated by `PackThreeResults` and `Text.JoinAppend` |
| Sweep.AnalysisInput | app/src/main/kotlin/App.kt:147-153 | the analysis input: heading, prompt, heading, packed results (exact when no carriage return occurs, see below) |
| Sweep.AnalysisRequest | app/src/main/kotlin/App.kt:127-154 | the analysis call's arguments; `RunTurn` states it is the fourth call on every turn that passes the gate, including one whose analysis call raises |
| Sweep.PackThreeResults | app/src/main/kotlin/App.kt:119-125 | three results pack into their `temperature=<t>\n<response>\n---\n` blocks, in order, each ending with the separator line |
| Sweep.RunSweep | app/src/main/kotlin/App.kt:53-63 | call i is the sweep request at the i-th temperature with at most 500 tokens; result i carries that temperature and the call's text; an exception stops the sweep at the raising call |
| Sweep.RunTurn | app/src/main/kotlin/App.kt:53-74 | every call names the turn's model; in an aborted turn every call but the last succeeded and the last raised, so nothing is called after an exception; the first three calls are the sweep at 0.0, 0.7, 1.2 in order; a turn stopped at the gate made three calls and some answer trips the detector; a fourth call is made only after the three sweep calls succeeded and the gate passed, and it is then the analysis request (temperature 0.0, at most 700 tokens, input built from the results), whether it returns text or raises; an analysed turn made that fourth call and no answer trips the detector |
| Sweep.AnalysisIssuedIffTemperatureSupported | app/src/main/kotlin/App.kt:65-74 | when the three sweep calls return text, the analysis call is issued if and only if none of the three texts contains the marker in any case |
| Session.ClassifyLine | app/src/main/kotlin/App.kt:44-46 | a missing line counts as empty; the line is skipped exactly when it is blank; it stops exactly when its trimmed text equals `exit` ignoring case; otherwise the prompt is the trimmed, non-empty line |
| Session.ModelName | app/src/main/kotlin/App.kt:23 | the model named by `OPENAI_MODEL`, `gpt-4.1-mini` when unset; `RunSession` states that every request uses it |
| Session.RunCommands | app/src/main/kotlin/App.kt:42-77 | the turns run are those of the prompts before the first `exit`, in order, each the turn for its prompt; only the last turn can be aborted, and the session crashed exactly then |
| Session.RunSession | app/src/main/kotlin/App.kt:42-77 | turn i is the turn for the i-th prompt of the typed lines, run with the model `OPENAI_MODEL` configures, and every request of every turn names that model; the session crashed exactly when its last turn was aborted, and otherwise every prompt before the first `exit` ran |
| Session.SkipsChangeNothing | app/src/main/kotlin/App.kt:46 | removing blank and missing lines leaves the session unchanged: they never trigger a request |
| Session.ExitEndsSession | app/src/main/kotlin/App.kt:45 | nothing after the first `exit` is read, and a session containing `exit` does not end by running out of input |
| Session.TrimPadded | app/src/main/kotlin/App.kt:44 | a word padded with whitespace on either side trims to the word |
| Session.ExitInAnyCase | app/src/main/kotlin/App.kt:45 | `exit` in any letter case, padded with whitespace, stops the loop |
| Session.ExitWord | app/src/main/kotlin/App.kt:45 | a line that is a spelling of `exit` (`exit`, `Exit`, `EXIT`, ...) stops the loop |
| Session.MissingAndBlankLinesSkipped | app/src/main/kotlin/App.kt:44-46 | a missing line and a whitespace-only line are skipped |

## Left out

- HTTP transport, the bearer header and the endpoint (App.kt:101-105): these are network I/O through a library. `Requester` is a parameter, and its `None` stands for every transport or body-parse exception.
- `Json.parseToJsonElement` (App.kt:158): the model starts from the parsed tree. A malformed body is folded into `TransportOrParse`.
- The `Loader` spinner and its label (App.kt:99, 207-230): a cosmetic terminal animation on a thread.
- Environment reads and the missing-key error (App.kt:23, 31-32): process I/O. The value of `OPENAI_MODEL` is a parameter of `Session.RunSession`, and the API key is not modelled.
- Console output: the banners, the guidance printed at the gate, `printTemperatureResponses` and the printed analysis (App.kt:36-40, 48-51, 66-69, 73-75, 199-205). Turns record their results and analysis text instead.
- Releasing the HTTP client in `finally` (App.kt:78-80): a resource with no state in the model.
- Double formatting (App.kt:99, 121): temperatures are opaque decimal labels `0.0`, `0.7`, `1.2`, the text `Double.toString` gives for them.
- Sweep.AnalysisInput: models the `trimIndent` of the input template (App.kt:147-153) as `Исходный запрос:\n<prompt>\n\nОтветы:\n<packed>`. This is what `trimIndent` returns when neither prompt nor answers contain a carriage return. `trimIndent` also turns `\r` and `\r\n` line breaks into `\n`, which is not modelled.
- Sweep.AnalysisInstructions is the fixed instruction template (App.kt:132-146) after `trimIndent`, kept as a constant.
- Session.ClassifyLine: compares with `exit` under ASCII case folding only. Kotlin's `ignoreCase` also folds some non-ASCII letters (for example dotless `ı` upper-cases to `I`), so such spellings are not recognised by the model.
- Sweep.IsUnsupportedTemperatureError: the same ASCII-only case folding.
- Text.IsWhitespace: the JVM table of whitespace characters as of current Unicode. A future Unicode change to the space separators would not be tracked.
- `max_output_tokens` and item counts are unbounded integers. The only values the client passes are 500 and 700, so 32-bit wrap-around cannot arise.
- The requester is a function, so the same request always gets the same reply. The properties proved are per call and do not depend on this.
- Running out of input: the real loop re-prompts forever on end of input. The model's finite list of lines ends with `EndOfInput`.

=== FILE: extract.dfy ===
/** The response-text extractor: from the JSON tree of an API response to the
    single string shown to the user (`parseOutputText` and `extractTextValue`). */
module Extract {
  import opened Wrappers
  import opened Json
  import opened Text

  /** Why the extractor (or the call feeding it) stopped with an exception
      instead of returning a string. */
  datatype Failure =
    | RootNotObject          // `.jsonObject` on a response that is not an object
    | OutputNotArray         // `.jsonArray` on an `output` member that is not an array
    | ContentNotArray        // `.jsonArray` on a message's `content` that is not an array
    | StatusNotPrimitive     // `.jsonPrimitive` on an object or array `status`
    | TransportOrParse       // the HTTP call failed or its body was not JSON

  /** "Error", the word both messages of the extractor start with. */
  const ErrorWord := "Ошибка"
  const ApiErrorPrefix := ErrorWord + " API: "
  const DiagnosticPrefix := ErrorWord + ": не удалось извлечь текст ответа (status="
  const DiagnosticMiddle := ", output_items="
  const DiagnosticSuffix := ")"

  /** `runCatching { element.jsonPrimitive.contentOrNull }.getOrNull()`:
      the text of a string, number or boolean; nothing for null, arrays and objects. */
  function Content(j: Json): (r: Option<string>)
    ensures r.Some? <==> j.JStr? || j.JNum? || j.JBool?
  {
    match j
    case JStr(s) => Some(s)
    case JNum(literal) => Some(literal)
    case JBool(b) => Some(if b then "true" else "false")
    case _ => None
  }

  /** `extractTextValue` on a present element: an object is replaced by its
      `value` member, as many times as it takes to reach a non-object. */
  function Resolve(j: Json): Option<string>
    decreases j
  {
    match j
    case JObject(fields) =>
      (match Get(fields, "value")
       case None => None
       case Some(v) =>
         GetSmaller(fields, "value");
         Resolve(v))
    case _ => Content(j)
  }

  /** `extractTextValue(element)`, where an absent member is `None`. */
  function ExtractTextValue(e: Option<Json>): (r: Option<string>)
    ensures e.None? ==> r.None?
  {
    match e
    case None => None
    case Some(j) => Resolve(j)
  }

  /** The element reached from `j` by following the `value` member `n` times,
      if every element on the way is an object that has one. */
  ghost function FollowValue(j: Json, n: nat): Option<Json>
    decreases n
  {
    if n == 0 then Some(j)
    else match j
      case JObject(fields) =>
        (match Get(fields, "value")
         case None => None
         case Some(v) => FollowValue(v, n - 1))
      case _ => None
  }

  /** Whenever a chain of `value` members of any length ends at a non-object,
      resolving the start gives that element's primitive content. */
  lemma {:induction false} ResolveFollowsValueChain(j: Json, n: nat)
    requires FollowValue(j, n).Some? && !FollowValue(j, n).value.JObject?
    ensures Resolve(j) == Content(FollowValue(j, n).value)
    decreases n
  {
    if n > 0 {
      var v := Get(j.fields, "value").value;
      GetSmaller(j.fields, "value");
      ResolveFollowsValueChain(v, n - 1);
    }
  }

  /** Conversely, every resolved text comes from such a chain: its length is returned. */
  lemma {:induction false} ResolvedTextHasValueChain(j: Json) returns (n: nat)
    requires Resolve(j).Some?
    ensures FollowValue(j, n).Some? && !FollowValue(j, n).value.JObject?
    ensures Content(FollowValue(j, n).value) == Resolve(j)
    decreases j
  {
    n := 0;
    if j.JObject? {
      var v := Get(j.fields, "value").value;
      GetSmaller(j.fields, "value");
      var m := ResolvedTextHasValueChain(v);
      n := m + 1;
    }
  }

  /** Null and arrays resolve to nothing, also at the end of a `value` chain. */
  lemma NullAndArrayResolveToNothing(j: Json)
    requires j.JNull? || j.JArray?
    ensures Resolve(j).None?
    ensures forall f: seq<(string, Json)> :: Get(f, "value") == Some(j) ==> Resolve(JObject(f)).None?
  {
  }

  /** The fragment one content part of a `message` item contributes: for a
      part of type `output_text` or `text`, its `text`, or its `value` only
      when `text` resolves to nothing. */
  function PartFragment(part: Json): string {
    match part
    case JObject(fields) =>
      var kind := ExtractTextValue(Get(fields, "type"));
      if kind == Some("output_text") || kind == Some("text") then
        (match ExtractTextValue(Get(fields, "text"))
         case Some(t) => t
         case None => ExtractTextValue(Get(fields, "value")).GetOr(""))
      else ""
    case _ => ""
  }

  /** The fragments of a message's content parts, concatenated in order. */
  function PartsText(parts: seq<Json>): string {
    Join(parts, PartFragment)
  }

  /** A `message` item whose `content` is present but not an array (JSON null
      included): `.jsonArray` raises on it. */
  predicate IsMalformedMessage(item: Json) {
    && item.JObject?
    && ExtractTextValue(Get(item.fields, "type")) == Some("message")
    && Get(item.fields, "content").Some?
    && !Get(item.fields, "content").value.JArray?
  }

  /** The fragment one element of `output` contributes, or the exception raised
      by a message whose `content` is present but not an array. */
  function ItemFragment(item: Json): (r: Result<string, Failure>)
    ensures r.Failure? <==> IsMalformedMessage(item)
    ensures r.Failure? ==> r.error == ContentNotArray
  {
    match item
    case JObject(fields) =>
      var kind := ExtractTextValue(Get(fields, "type"));
      if kind == Some("output_text") then
        Success(ExtractTextValue(Get(fields, "text")).GetOr(""))
      else if kind != Some("message") then
        Success("")
      else
        (match Get(fields, "content")
         case None => Success("")
         case Some(JArray(parts)) => Success(PartsText(parts))
         case Some(_) => Failure(ContentNotArray))
    case _ => Success("")
  }

  /** The fragments of the `output` items concatenated in array order with no
      separator; the first item that raises stops the scan. */
  function OutputText(items: seq<Json>): (r: Result<string, Failure>)
    ensures r.Failure? ==> r.error == ContentNotArray
    decreases |items|
  {
    if |items| == 0 then Success("")
    else match ItemFragment(items[0])
      case Failure(e) => Failure(e)
      case Success(head) =>
        (match OutputText(items[1..])
         case Failure(e) => Failure(e)
         case Success(tail) => Success(head + tail))
  }

  /** The scanned answer of a response object: empty when there is no `output`. */
  function Answer(fields: seq<(string, Json)>): (r: Result<string, Failure>)
    ensures Get(fields, "output").None? ==> r == Success("")
    ensures r.Failure? ==> r.error == OutputNotArray || r.error == ContentNotArray
  {
    match Get(fields, "output")
    case None => Success("")
    case Some(JArray(items)) => OutputText(items)
    case Some(_) => Failure(OutputNotArray)
  }

  /** `error.message`, considered only when `error` is an object. */
  function ErrorMessage(fields: seq<(string, Json)>): Option<string> {
    match Get(fields, "error")
    case Some(JObject(errorFields)) => ExtractTextValue(Get(errorFields, "message"))
    case _ => None
  }

  /** How `status` is printed in the diagnostic: its primitive content, or
      `null` when it is absent or JSON null. */
  function StatusText(fields: seq<(string, Json)>): (r: Result<string, Failure>)
    ensures r.Failure? <==> Get(fields, "status").Some? &&
                            (Get(fields, "status").value.JObject? || Get(fields, "status").value.JArray?)
    ensures r.Failure? ==> r.error == StatusNotPrimitive
  {
    match Get(fields, "status")
    case None => Success("null")
    case Some(JObject(_)) => Failure(StatusNotPrimitive)
    case Some(JArray(_)) => Failure(StatusNotPrimitive)
    case Some(p) => Success(Content(p).GetOr("null"))
  }

  /** Number of elements of `output`, every element counted; 0 when absent. */
  function OutputSize(fields: seq<(string, Json)>): nat {
    match Get(fields, "output")
    case Some(JArray(items)) => |items|
    case _ => 0
  }

  /** The diagnostic returned when no text could be extracted. */
  function Diagnostic(status: string, outputItems: nat): (d: string)
    ensures !IsBlank(d)
  {
    assert DiagnosticPrefix[0] == ErrorWord[0] == 'О';
    NotBlankAfter(DiagnosticPrefix, status + DiagnosticMiddle + NatToString(outputItems) + DiagnosticSuffix);
    DiagnosticPrefix + (status + DiagnosticMiddle + NatToString(outputItems) + DiagnosticSuffix)
  }

  /** `parseOutputText` on a parsed response body. What it returns is never
      blank; it raises only on a response that is not an object or on a
      malformed member, never with a transport failure. */
  function ParseOutputText(response: Json): (r: Result<string, Failure>)
    ensures r.Success? ==> !IsBlank(r.value)
    ensures r.Failure? ==> r.error != TransportOrParse
    ensures r.Failure? ==> (r.error == RootNotObject <==> !response.JObject?)
    ensures !response.JObject? ==> r == Failure(RootNotObject)
  {
    match response
    case JObject(fields) =>
      var errorMessage := ErrorMessage(fields);
      if !IsNullOrBlank(errorMessage) then
        assert ApiErrorPrefix[0] == ErrorWord[0] == 'О';
        NotBlankAfter(ApiErrorPrefix, errorMessage.value);
        Success(ApiErrorPrefix + errorMessage.value)
      else
        var topLevel := ExtractTextValue(Get(fields, "output_text"));
        if !IsNullOrBlank(topLevel) then Success(topLevel.value)
        else
          (match Answer(fields)
           case Failure(e) => Failure(e)
           case Success(answer) =>
             if !IsBlank(answer) then Success(answer)
             else
               (match StatusText(fields)
                case Failure(e) => Failure(e)
                case Success(status) => Success(Diagnostic(status, OutputSize(fields)))))
    case _ => Failure(RootNotObject)
  }
}

=== FILE: extract_properties.dfy ===
/** What the extractor promises: the priority of its sources, the order in
    which fragments are joined, and the diagnostic it falls back to. It also
    holds the scan of `output` written with the two nested loops of the
    original, proved to agree with the fragment-wise definition. */
module ExtractProperties {
  import opened Wrappers
  import opened Json
  import opened Text
  import opened Extract

  /** A non-blank `error.message` decides the result, whatever `output_text`,
      `output` and `status` hold, even when they would raise. */
  lemma ApiErrorTakesPriority(fields: seq<(string, Json)>, errorFields: seq<(string, Json)>, m: string)
    requires Get(fields, "error") == Some(JObject(errorFields))
    requires ExtractTextValue(Get(errorFields, "message")) == Some(m)
    requires !IsBlank(m)
    ensures ParseOutputText(JObject(fields)) == Success(ApiErrorPrefix + m)
  {
  }

  /** An `error` member that is not an object is ignored: two responses that
      agree on every other member give the same result. */
  lemma NonObjectErrorIgnored(fields: seq<(string, Json)>, other: seq<(string, Json)>)
    requires Get(fields, "error").None? || !Get(fields, "error").value.JObject?
    requires Get(other, "error").None? || !Get(other, "error").value.JObject?
    requires forall k :: k != "error" ==> Get(fields, k) == Get(other, k)
    ensures ParseOutputText(JObject(fields)) == ParseOutputText(JObject(other))
  {
    assert ErrorMessage(fields) == None == ErrorMessage(other);
    assert Get(fields, "output_text") == Get(other, "output_text");
    assert Get(fields, "output") == Get(other, "output");
    assert Answer(fields) == Answer(other);
    assert OutputSize(fields) == OutputSize(other);
    assert Get(fields, "status") == Get(other, "status");
    assert StatusText(fields) == StatusText(other);
  }

  /** Without an error message, a non-blank top-level `output_text` is
      returned verbatim and `output` is not consulted. */
  lemma OutputTextTakesPriority(fields: seq<(string, Json)>, t: string)
    requires IsNullOrBlank(ErrorMessage(fields))
    requires ExtractTextValue(Get(fields, "output_text")) == Some(t)
    requires !IsBlank(t)
    ensures ParseOutputText(JObject(fields)) == Success(t)
  {
  }

  /** Otherwise a non-blank scanned answer is returned unchanged, surrounding
      whitespace included. */
  lemma AnswerReturnedVerbatim(fields: seq<(string, Json)>, answer: string)
    requires IsNullOrBlank(ErrorMessage(fields))
    requires IsNullOrBlank(ExtractTextValue(Get(fields, "output_text")))
    requires Answer(fields) == Success(answer)
    requires !IsBlank(answer)
    ensures ParseOutputText(JObject(fields)) == Success(answer)
  {
  }

  /** When nothing yields text, the result is the diagnostic built from
      `status` and the number of `output` elements. */
  lemma BlankAnswerGivesDiagnostic(fields: seq<(string, Json)>, answer: string, status: string)
    requires IsNullOrBlank(ErrorMessage(fields))
    requires IsNullOrBlank(ExtractTextValue(Get(fields, "output_text")))
    requires Answer(fields) == Success(answer)
    requires IsBlank(answer)
    requires StatusText(fields) == Success(status)
    ensures ParseOutputText(JObject(fields)) == Success(Diagnostic(status, OutputSize(fields)))
  {
  }

  /** The diagnostic reports `status` as `null` when it is absent or JSON null. */
  lemma StatusNullWhenAbsentOrNull(fields: seq<(string, Json)>)
    requires Get(fields, "status").None? || Get(fields, "status") == Some(JNull)
    ensures StatusText(fields) == Success("null")
  {
  }

  /** The count in the diagnostic is every element of `output`, objects or not. */
  lemma OutputSizeCountsEveryElement(fields: seq<(string, Json)>, items: seq<Json>)
    requires Get(fields, "output") == Some(JArray(items))
    ensures OutputSize(fields) == |items|
  {
  }

  /** Without an `output` member the diagnostic reports zero items. */
  lemma OutputSizeZeroWhenAbsent(fields: seq<(string, Json)>)
    requires Get(fields, "output").None?
    ensures OutputSize(fields) == 0
  {
  }

  /** The digits between `, output_items=` and the closing parenthesis read
      back as the element count, with no leading zero. */
  lemma DiagnosticReportsCount(status: string, n: nat)
    ensures var d := Diagnostic(status, n);
            var from := |DiagnosticPrefix| + |status| + |DiagnosticMiddle|;
            from < |d| && d[..from] == DiagnosticPrefix + status + DiagnosticMiddle &&
            d[|d| - 1] == ')' &&
            AllDigits(d[from..|d| - 1]) && DigitsValue(d[from..|d| - 1]) == n &&
            (|d| - 1 - from > 1 ==> d[from] != '0')
  {
    var d := Diagnostic(status, n);
    var from := |DiagnosticPrefix| + |status| + |DiagnosticMiddle|;
    assert d[from..|d| - 1] == NatToString(n);
    assert d[..from] == DiagnosticPrefix + status + DiagnosticMiddle;
    DigitsValueOfNatToString(n);
  }

  /** Scanning two runs of items one after the other is scanning each and
      joining the texts; it raises exactly when one of them raises. */
  lemma {:induction false} OutputTextAppend(a: seq<Json>, b: seq<Json>)
    ensures OutputText(a + b) ==
      match OutputText(a)
      case Failure(e) => Failure(e)
      case Success(x) =>
        (match OutputText(b)
         case Failure(e) => Failure(e)
         case Success(y) => Success(x + y))
    decreases |a|
  {
    if |a| == 0 {
      assert a + b == b;
      if OutputText(b).Success? {
        assert "" + OutputText(b).value == OutputText(b).value;
      }
    } else {
      assert (a + b)[0] == a[0];
      assert (a + b)[1..] == a[1..] + b;
      OutputTextAppend(a[1..], b);
      if ItemFragment(a[0]).Success? && OutputText(a[1..]).Success? && OutputText(b).Success? {
        var head, x, y := ItemFragment(a[0]).value, OutputText(a[1..]).value, OutputText(b).value;
        assert head + (x + y) == (head + x) + y;
      }
    }
  }

  /** The scan of `output` raises exactly when some element is a `message`
      whose `content` is present but not an array, and then with that
      exception. */
  lemma {:induction false} OutputTextRaisesIff(items: seq<Json>)
    ensures OutputText(items).Failure? <==>
      exists i :: 0 <= i < |items| && IsMalformedMessage(items[i])
    ensures OutputText(items).Failure? ==> OutputText(items).error == ContentNotArray
    decreases |items|
  {
    if |items| > 0 {
      var tail := items[1..];
      OutputTextRaisesIff(tail);
      if exists i :: 0 <= i < |items| && IsMalformedMessage(items[i]) {
        var i :| 0 <= i < |items| && IsMalformedMessage(items[i]);
        if i > 0 {
          assert tail[i - 1] == items[i];
        }
      }
      if exists k :: 0 <= k < |tail| && IsMalformedMessage(tail[k]) {
        var k :| 0 <= k < |tail| && IsMalformedMessage(tail[k]);
        assert items[k + 1] == tail[k];
      }
    }
  }

  /** `output` is present and is not an array: `.jsonArray` raises on it. */
  predicate MalformedOutput(fields: seq<(string, Json)>) {
    Get(fields, "output").Some? && !Get(fields, "output").value.JArray?
  }

  /** `output` is an array holding a message whose `content` is not an array. */
  predicate MalformedContent(fields: seq<(string, Json)>) {
    && Get(fields, "output").Some?
    && Get(fields, "output").value.JArray?
    && exists i :: 0 <= i < |Get(fields, "output").value.items| &&
                   IsMalformedMessage(Get(fields, "output").value.items[i])
  }

  /** `status` is an object or an array: `.jsonPrimitive` raises on it. */
  predicate MalformedStatus(fields: seq<(string, Json)>) {
    Get(fields, "status").Some? &&
    (Get(fields, "status").value.JObject? || Get(fields, "status").value.JArray?)
  }

  /** A response object makes the extractor raise exactly when neither the
      error message nor `output_text` gives text and then either the scan of
      `output` raises, or it gives blank text and `status` is not a
      primitive. The exception names the member that caused it. */
  lemma RaisesOnlyOnMalformedMembers(fields: seq<(string, Json)>)
    ensures ParseOutputText(JObject(fields)).Failure? <==>
      && IsNullOrBlank(ErrorMessage(fields))
      && IsNullOrBlank(ExtractTextValue(Get(fields, "output_text")))
      && (|| MalformedOutput(fields)
          || MalformedContent(fields)
          || (Answer(fields).Success? && IsBlank(Answer(fields).value) && MalformedStatus(fields)))
    ensures ParseOutputText(JObject(fields)).Failure? ==>
      && (ParseOutputText(JObject(fields)).error == OutputNotArray <==> MalformedOutput(fields))
      && (ParseOutputText(JObject(fields)).error == ContentNotArray <==> MalformedContent(fields))
      && (ParseOutputText(JObject(fields)).error == StatusNotPrimitive <==> Answer(fields).Success?)
  {
    if Get(fields, "output").Some? && Get(fields, "output").value.JArray? {
      OutputTextRaisesIff(Get(fields, "output").value.items);
    }
  }

  /** The text of content parts is the concatenation of their fragments. */
  lemma PartsTextAppend(a: seq<Json>, b: seq<Json>)
    ensures PartsText(a + b) == PartsText(a) + PartsText(b)
  {
    JoinAppend(a, b, PartFragment);
  }

  /** Non-objects, items of any type other than `output_text` and `message`,
      and messages without `content` contribute nothing. */
  lemma IgnoredItemContributesNothing(item: Json)
    requires || !item.JObject?
             || (var kind := ExtractTextValue(Get(item.fields, "type"));
                 kind != Some("output_text") &&
                 (kind != Some("message") || Get(item.fields, "content").None?))
    ensures ItemFragment(item) == Success("")
  {
  }

  /** So such an item can sit anywhere in `output` without changing the scan. */
  lemma IgnoredItemAnywhere(before: seq<Json>, item: Json, after: seq<Json>)
    requires ItemFragment(item) == Success("")
    ensures OutputText(before + [item] + after) == OutputText(before + after)
  {
    OutputTextAppend(before, [item] + after);
    OutputTextAppend(before, after);
    assert before + [item] + after == before + ([item] + after);
    assert OutputText([item] + after) == OutputText(after) by {
      assert ([item] + after)[0] == item;
      assert ([item] + after)[1..] == after;
      if OutputText(after).Success? {
        assert "" + OutputText(after).value == OutputText(after).value;
      }
    }
  }

  /** A content part's `text` is used whenever it resolves, even to the empty
      string; its `value` is consulted only when `text` resolves to nothing. */
  lemma PartPrefersText(fields: seq<(string, Json)>)
    requires var kind := ExtractTextValue(Get(fields, "type"));
             kind == Some("output_text") || kind == Some("text")
    ensures ExtractTextValue(Get(fields, "text")).Some? ==>
      PartFragment(JObject(fields)) == ExtractTextValue(Get(fields, "text")).value
    ensures ExtractTextValue(Get(fields, "text")).None? ==>
      PartFragment(JObject(fields)) == ExtractTextValue(Get(fields, "value")).GetOr("")
  {
  }

  /** Content parts of any other type contribute nothing. */
  lemma OtherPartContributesNothing(part: Json)
    requires || !part.JObject?
             || (var kind := ExtractTextValue(Get(part.fields, "type"));
                 kind != Some("output_text") && kind != Some("text"))
    ensures PartFragment(part) == ""
  {
  }

  /** The inner loop of the scan over a message's content parts, appending
      each part's fragment in order. */
  method ScanContent(parts: seq<Json>) returns (text: string)
    ensures text == PartsText(parts)
  {
    text := "";
    var k := 0;
    while k < |parts|
      invariant 0 <= k <= |parts|
      invariant text == Join(parts[..k], PartFragment)
    {
      var part := parts[k];
      if part.JObject? {
        var kind := ExtractTextValue(Get(part.fields, "type"));
        if kind == Some("output_text") || kind == Some("text") {
          var partText := ExtractTextValue(Get(part.fields, "text"));
          if partText.None? {
            partText := ExtractTextValue(Get(part.fields, "value"));
          }
          text := text + partText.GetOr("");
        }
      }
      JoinAppend(parts[..k], [part], PartFragment);
      JoinOne(part, PartFragment);
      assert parts[..k + 1] == parts[..k] + [part];
      k := k + 1;
    }
    assert parts[..k] == parts;
  }

  /** The scan of `output` as the original writes it: a loop over the items
      that appends to one buffer, descending into a message's content parts;
      a malformed `content` stops it with an exception. */
  method ScanOutput(items: seq<Json>) returns (answer: string, failure: Option<Failure>)
    ensures failure.None? <==> OutputText(items).Success?
    ensures failure.None? ==> answer == OutputText(items).value
    ensures failure.Some? ==> OutputText(items) == Failure(failure.value)
  {
    answer := "";
    failure := None;
    var i := 0;
    while i < |items|
      invariant 0 <= i <= |items|
      invariant OutputText(items[..i]) == Success(answer)
      invariant failure.None?
    {
      var item := items[i];
      var fragment := "";
      if item.JObject? {
        var kind := ExtractTextValue(Get(item.fields, "type"));
        if kind == Some("output_text") {
          fragment := ExtractTextValue(Get(item.fields, "text")).GetOr("");
        } else if kind == Some("message") {
          var content := Get(item.fields, "content");
          if content.Some? {
            if !content.value.JArray? {
              failure := Some(ContentNotArray);
            } else {
              fragment := ScanContent(content.value.items);
            }
          }
        }
      }
      assert ItemFragment(item) == if failure.Some? then Failure(ContentNotArray) else Success(fragment);
      OutputTextAppend(items[..i], [item]);
      OutputTextOfOne(item);
      assert items[..i + 1] == items[..i] + [item];
      if failure.Some? {
        OutputTextAppend(items[..i + 1], items[i + 1..]);
        assert items == items[..i + 1] + items[i + 1..];
        return;
      }
      answer := answer + fragment;
      i := i + 1;
    }
    assert items[..i] == items;
  }

  /** A single item scans to its own fragment. */
  lemma OutputTextOfOne(item: Json)
    ensures OutputText([item]) == ItemFragment(item)
  {
    assert [item][1..] == [];
    if ItemFragment(item).Success? {
      assert ItemFragment(item).value + "" == ItemFragment(item).value;
    }
  }

  /** A `message` item whose one content part has type `text` and text
      `hello` yields `hello`. */
  lemma MessageTextExample()
    ensures ParseOutputText(JObject([("output", JArray([
      JObject([("type", JStr("message")),
               ("content", JArray([JObject([("type", JStr("text")), ("text", JStr("hello"))])]))])
    ]))])) == Success("hello")
  {
    var part := JObject([("type", JStr("text")), ("text", JStr("hello"))]);
    var item := JObject([("type", JStr("message")), ("content", JArray([part]))]);
    MessageItemExample(part, item);
    OutputTextOfOne(item);
    var fields := [("output", JArray([item]))];
    assert Get(fields, "error") == None;
    assert Get(fields, "output_text") == None;
    assert Get(fields, "output") == Some(JArray([item]));
    assert Answer(fields) == Success("hello");
    assert !IsBlank("hello") by {
      assert !IsWhitespace("hello"[0]);
    }
  }

  /** The message item of `MessageTextExample` contributes `hello`. */
  lemma MessageItemExample(part: Json, item: Json)
    requires part == JObject([("type", JStr("text")), ("text", JStr("hello"))])
    requires item == JObject([("type", JStr("message")), ("content", JArray([part]))])
    ensures ItemFragment(item) == Success("hello")
  {
    assert Get(part.fields, "type") == Some(JStr("text"));
    assert Get(part.fields, "text") == Some(JStr("hello"));
    assert PartFragment(part) == "hello";
    JoinOne(part, PartFragment);
    assert Get(item.fields, "type") == Some(JStr("message"));
    assert Get(item.fields, "content") == Some(JArray([part]));
  }

  /** Two `output_text` items with texts `A` and `B` yield `AB`. */
  lemma ConcatenationExample()
    ensures ParseOutputText(JObject([("output", JArray([
      JObject([("type", JStr("output_text")), ("text", JStr("A"))]),
      JObject([("type", JStr("output_text")), ("text", JStr("B"))])
    ]))])) == Success("AB")
  {
    var a := JObject([("type", JStr("output_text")), ("text", JStr("A"))]);
    var b := JObject([("type", JStr("output_text")), ("text", JStr("B"))]);
    assert Get(a.fields, "type") == Some(JStr("output_text"));
    assert Get(a.fields, "text") == Some(JStr("A"));
    assert Get(b.fields, "type") == Some(JStr("output_text"));
    assert Get(b.fields, "text") == Some(JStr("B"));
    OutputTextOfOne(a);
    OutputTextOfOne(b);
    OutputTextAppend([a], [b]);
    assert [a] + [b] == [a, b];
    assert "A" + "B" == "AB";
    var fields := [("output", JArray([a, b]))];
    assert Get(fields, "error") == None;
    assert Get(fields, "output_text") == None;
    assert Get(fields, "output") == Some(JArray([a, b]));
    assert !IsBlank("AB") by {
      assert !IsWhitespace("AB"[0]);
    }
  }

  /** An empty `output` and no `status` give the diagnostic with `status=null`
      and `output_items=0`. */
  lemma EmptyOutputExample()
    ensures ParseOutputText(JObject([("output", JArray([]))])) ==
      Success("Ошибка: не удалось извлечь текст ответа (status=null, output_items=0)")
  {
    var fields := [("output", JArray([]))];
    assert Get(fields, "error") == None;
    assert Get(fields, "output_text") == None;
    assert Get(fields, "status") == None;
    assert Get(fields, "output") == Some(JArray([]));
    assert IsBlank("");
    assert ParseOutputText(JObject(fields)) == Success(Diagnostic("null", 0));
    EmptyDiagnosticText();
  }

  /** The diagnostic for a missing status and no items, spelled out. */
  lemma EmptyDiagnosticText()
    ensures Diagnostic("null", 0) ==
      "Ошибка: не удалось извлечь текст ответа (status=null, output_items=0)"
  {
    EmptyDiagnosticDetails();
    EmptyDiagnosticJoined();
    assert Diagnostic("null", 0) ==
      DiagnosticPrefix + ("null" + DiagnosticMiddle + NatToString(0) + DiagnosticSuffix);
  }

  /** The part of that diagnostic after the prefix. */
  lemma EmptyDiagnosticDetails()
    ensures "null" + DiagnosticMiddle + NatToString(0) + DiagnosticSuffix == "null, output_items=0)"
  {
    assert NatToString(0) == "0";
  }

  /** The prefix followed by that part. */
  lemma EmptyDiagnosticJoined()
    ensures DiagnosticPrefix + "null, output_items=0)" ==
      "Ошибка: не удалось извлечь текст ответа (status=null, output_items=0)"
  {
    DiagnosticPrefixText();
    assert "Ошибка: не удалось извлечь текст ответа (status=" + "null, output_items=0)" ==
      "Ошибка: не удалось извлечь текст ответа (status=null, output_items=0)";
  }

  /** The diagnostic's fixed prefix, spelled out. */
  lemma DiagnosticPrefixText()
    ensures DiagnosticPrefix == "Ошибка: не удалось извлечь текст ответа (status="
  {
  }

  /** An `error.message` wins even over an `output` that would raise. */
  lemma ErrorBeatsMalformedOutputExample()
    ensures ParseOutputText(JObject([("output", JNum("1"))])) == Failure(OutputNotArray)
    ensures ParseOutputText(JObject([("output", JNum("1")),
      ("error", JObject([("message", JStr("quota"))]))])) == Success("Ошибка API: quota")
  {
    var bad := [("output", JNum("1"))];
    assert Get(bad, "error") == None;
    assert Get(bad, "output_text") == None;
    assert Get(bad, "output") == Some(JNum("1"));
    var errorFields := [("message", JStr("quota"))];
    var fields := bad + [("error", JObject(errorFields))];
    assert Get(fields, "error") == Some(JObject(errorFields));
    assert Get(errorFields, "message") == Some(JStr("quota"));
    assert !IsBlank("quota") by {
      assert !IsWhitespace("quota"[0]);
    }
    assert ApiErrorPrefix + "quota" == "Ошибка API: quota";
  }

  /** `value` wrappers are unwrapped at any depth, also at the top level. */
  lemma NestedValueExample()
    ensures ParseOutputText(JObject([("output_text",
      JObject([("value", JObject([("value", JStr("hi"))]))]))])) == Success("hi")
  {
    var inner := JObject([("value", JStr("hi"))]);
    var outer := JObject([("value", inner)]);
    var fields := [("output_text", outer)];
    assert Get(fields, "error") == None;
    assert Get(fields, "output_text") == Some(outer);
    assert Get(outer.fields, "value") == Some(inner);
    assert Get(inner.fields, "value") == Some(JStr("hi"));
    assert !IsBlank("hi") by {
      assert !IsWhitespace("hi"[0]);
    }
  }
}

=== FILE: json.dfy ===
/** The JSON element tree the extractor and the request builder work on. */
module Json {
  import opened Wrappers

  /** A parsed JSON element. An object is an association list of members;
      a number keeps the literal text it was written with. */
  datatype Json =
    | JNull
    | JBool(b: bool)
    | JNum(literal: string)
    | JStr(s: string)
    | JArray(items: seq<Json>)
    | JObject(fields: seq<(string, Json)>)

  /** Member lookup, `obj[key]`. A parsed object is a map in which a repeated
      key keeps the value written last, so the last binding wins. */
  function Get(fields: seq<(string, Json)>, key: string): Option<Json>
    decreases |fields|
  {
    if |fields| == 0 then None
    else if fields[|fields| - 1].0 == key then Some(fields[|fields| - 1].1)
    else Get(fields[..|fields| - 1], key)
  }

  /** `Get` finds the last member bound to `key`, and nothing when no member is. */
  lemma {:induction false} GetFindsLastBinding(fields: seq<(string, Json)>, key: string)
    ensures Get(fields, key).Some? ==>
      exists i :: 0 <= i < |fields| && fields[i] == (key, Get(fields, key).value) &&
        forall j :: i < j < |fields| ==> fields[j].0 != key
    ensures Get(fields, key).None? ==> forall i :: 0 <= i < |fields| ==> fields[i].0 != key
    decreases |fields|
  {
    if |fields| > 0 && fields[|fields| - 1].0 != key {
      var init := fields[..|fields| - 1];
      GetFindsLastBinding(init, key);
      if Get(init, key).Some? {
        var i :| 0 <= i < |init| && init[i] == (key, Get(init, key).value) &&
          forall j :: i < j < |init| ==> init[j].0 != key;
        assert fields[i] == init[i];
      }
    }
  }

  /** A member value is structurally smaller than the object holding it,
      which is what makes the recursive unwrapping of `value` terminate. */
  lemma GetSmaller(fields: seq<(string, Json)>, key: string)
    requires Get(fields, key).Some?
    ensures Get(fields, key).value < JObject(fields)
  {
    GetFindsLastBinding(fields, key);
    var i :| 0 <= i < |fields| && fields[i] == (key, Get(fields, key).value);
    assert fields[i] in fields;
  }
}

=== FILE: request.dfy ===
/** The request object sent to the Responses endpoint (`requestResponse`),
    and the call through an abstract requester. */
module Request {
  import opened Wrappers
  import opened Json
  import opened Text
  import opened Extract

  /** A sampling temperature, kept as the decimal text the client writes for it. */
  datatype Temperature = Temperature(decimal: string)

  /** The arguments of one call; an absent optional argument is Kotlin's `null`. */
  datatype CompletionRequest = CompletionRequest(
    model: string,
    input: string,
    instructions: Option<string>,
    temperature: Option<Temperature>,
    maxOutputTokens: Option<int>)

  /** The member for an optional argument: one member when present, none when absent. */
  function OptionalMember(key: string, value: Option<Json>): seq<(string, Json)> {
    match value
    case Some(v) => [(key, v)]
    case None => []
  }

  /** The encoded optional arguments, absent when the argument is absent. */
  function InstructionsValue(r: CompletionRequest): Option<Json> {
    match r.instructions
    case Some(s) => Some(JStr(s))
    case None => None
  }

  function TemperatureValue(r: CompletionRequest): Option<Json> {
    match r.temperature
    case Some(t) => Some(JNum(t.decimal))
    case None => None
  }

  function MaxOutputTokensValue(r: CompletionRequest): Option<Json> {
    match r.maxOutputTokens
    case Some(n) => Some(JNum(IntToString(n)))
    case None => None
  }

  /** The members of the request object, in the order they are put. */
  function RequestFields(r: CompletionRequest): seq<(string, Json)> {
    [("model", JStr(r.model)), ("input", JStr(r.input))]
      + OptionalMember("instructions", InstructionsValue(r))
      + OptionalMember("temperature", TemperatureValue(r))
      + OptionalMember("max_output_tokens", MaxOutputTokensValue(r))
  }

  /** The request object built by `buildJsonObject`. It always binds `model`
      and `input`; it binds `instructions`, `temperature` and
      `max_output_tokens` exactly when the argument is present; no member is
      null and no key appears twice. */
  function ToJson(r: CompletionRequest): (j: Json)
    ensures j.JObject?
    ensures Get(j.fields, "model") == Some(JStr(r.model))
    ensures Get(j.fields, "input") == Some(JStr(r.input))
    ensures Get(j.fields, "instructions").Some? <==> r.instructions.Some?
    ensures Get(j.fields, "temperature").Some? <==> r.temperature.Some?
    ensures Get(j.fields, "max_output_tokens").Some? <==> r.maxOutputTokens.Some?
    ensures forall i :: 0 <= i < |j.fields| ==> !j.fields[i].1.JNull?
    ensures forall a, b :: 0 <= a < b < |j.fields| ==> j.fields[a].0 != j.fields[b].0
  {
    RequestFieldsLookup(r);
    RequestFieldsWellFormed(r);
    JObject(RequestFields(r))
  }

  /** Appending an optional member changes the lookup of its key only, and
      only when the member is present. */
  lemma GetOptionalMember(prefix: seq<(string, Json)>, key: string, value: Option<Json>, other: string)
    ensures Get(prefix + OptionalMember(key, value), key) == if value.Some? then value else Get(prefix, key)
    ensures other != key ==> Get(prefix + OptionalMember(key, value), other) == Get(prefix, other)
  {
    if value.None? {
      assert prefix + OptionalMember(key, value) == prefix;
    } else {
      var fields := prefix + OptionalMember(key, value);
      assert fields[..|fields| - 1] == prefix;
    }
  }

  /** What each key of the request object is bound to. */
  lemma RequestFieldsLookup(r: CompletionRequest)
    ensures Get(RequestFields(r), "model") == Some(JStr(r.model))
    ensures Get(RequestFields(r), "input") == Some(JStr(r.input))
    ensures Get(RequestFields(r), "instructions") == InstructionsValue(r)
    ensures Get(RequestFields(r), "temperature") == TemperatureValue(r)
    ensures Get(RequestFields(r), "max_output_tokens") == MaxOutputTokensValue(r)
  {
    var f0 := [("model", JStr(r.model)), ("input", JStr(r.input))];
    var f1 := f0 + OptionalMember("instructions", InstructionsValue(r));
    var f2 := f1 + OptionalMember("temperature", TemperatureValue(r));
    assert RequestFields(r) == f2 + OptionalMember("max_output_tokens", MaxOutputTokensValue(r));
    GetFindsLastBinding(f0, "instructions");
    GetFindsLastBinding(f0, "temperature");
    GetFindsLastBinding(f0, "max_output_tokens");
    GetOptionalMember(f0, "instructions", InstructionsValue(r), "model");
    GetOptionalMember(f0, "instructions", InstructionsValue(r), "input");
    GetOptionalMember(f0, "instructions", InstructionsValue(r), "temperature");
    GetOptionalMember(f0, "instructions", InstructionsValue(r), "max_output_tokens");
    GetOptionalMember(f1, "temperature", TemperatureValue(r), "model");
    GetOptionalMember(f1, "temperature", TemperatureValue(r), "input");
    GetOptionalMember(f1, "temperature", TemperatureValue(r), "instructions");
    GetOptionalMember(f1, "temperature", TemperatureValue(r), "max_output_tokens");
    GetOptionalMember(f2, "max_output_tokens", MaxOutputTokensValue(r), "model");
    GetOptionalMember(f2, "max_output_tokens", MaxOutputTokensValue(r), "input");
    GetOptionalMember(f2, "max_output_tokens", MaxOutputTokensValue(r), "instructions");
    GetOptionalMember(f2, "max_output_tokens", MaxOutputTokensValue(r), "temperature");
  }

  /** No member of the request object is null, and its keys are distinct. */
  lemma RequestFieldsWellFormed(r: CompletionRequest)
    ensures forall i :: 0 <= i < |RequestFields(r)| ==> !RequestFields(r)[i].1.JNull?
    ensures forall a, b :: 0 <= a < b < |RequestFields(r)| ==> RequestFields(r)[a].0 != RequestFields(r)[b].0
  {
    var fields := RequestFields(r);
    var keys := seq(|fields|, i requires 0 <= i < |fields| => fields[i].0);
    var expected := ["model", "input"]
      + (if r.instructions.Some? then ["instructions"] else [])
      + (if r.temperature.Some? then ["temperature"] else [])
      + (if r.maxOutputTokens.Some? then ["max_output_tokens"] else []);
    assert keys == expected;
  }

  /** Reads a request object back: `None` when a member is missing or has the
      wrong kind; an absent optional member reads as an absent argument. */
  function FromJson(j: Json): Option<CompletionRequest> {
    match j
    case JObject(fields) =>
      (match (Get(fields, "model"), Get(fields, "input"))
       case (Some(JStr(model)), Some(JStr(input))) =>
         var instructions := Get(fields, "instructions");
         var temperature := Get(fields, "temperature");
         var maxTokens := Get(fields, "max_output_tokens");
         if instructions.Some? && !instructions.value.JStr? then None
         else if temperature.Some? && !temperature.value.JNum? then None
         else if maxTokens.Some? && !(maxTokens.value.JNum? && ParseInt(maxTokens.value.literal).Some?) then None
         else
           Some(CompletionRequest(
             model, input,
             if instructions.Some? then Some(instructions.value.s) else None,
             if temperature.Some? then Some(Temperature(temperature.value.literal)) else None,
             if maxTokens.Some? then ParseInt(maxTokens.value.literal) else None))
       case _ => None)
    case _ => None
  }

  /** Reading back the request object gives the arguments it was built from;
      in particular an absent argument comes back absent, not as null. */
  lemma RequestRoundTrip(r: CompletionRequest)
    ensures FromJson(ToJson(r)) == Some(r)
  {
    RequestFieldsLookup(r);
    if r.maxOutputTokens.Some? {
      ParseIntToString(r.maxOutputTokens.value);
    }
  }

  /** The HTTP exchange, seen from the client: the response tree for a request
      object, or `None` when the call fails or the body is not JSON. */
  type Requester = Json -> Option<Json>

  /** `requestResponse`: send the request object and extract the text of the
      reply. A transport failure is reported exactly when the exchange
      failed, and text that comes back is never blank. */
  function RequestResponse(requester: Requester, r: CompletionRequest): (res: Result<string, Failure>)
    ensures (res.Failure? && res.error == TransportOrParse) <==> requester(ToJson(r)).None?
    ensures res.Success? ==> !IsBlank(res.value)
    ensures requester(ToJson(r)).Some? ==> res == ParseOutputText(requester(ToJson(r)).value)
  {
    match requester(ToJson(r))
    case None => Failure(TransportOrParse)
    case Some(response) => ParseOutputText(response)
  }
}

=== FILE: session.dfy ===
/** The interactive loop of `main`: read a line, stop on `exit`, skip blank
    lines, otherwise run one turn. */
module Session {
  import opened Wrappers
  import opened Text
  import opened Extract
  import opened Request
  import opened Sweep

  /** The model used when `OPENAI_MODEL` is not set. */
  const DefaultModel := "gpt-4.1-mini"

  /** The configured model, from the value of `OPENAI_MODEL` if it is set. */
  function ModelName(environment: Option<string>): string {
    environment.GetOr(DefaultModel)
  }

  /** What the loop does with one input line. */
  datatype Command = Exit | Skip | Prompt(text: string)

  /** The classification of a line read by `readlnOrNull`, `None` at end of
      input: the line is trimmed, `exit` in any case stops, a line that is
      blank is skipped, and a missing line counts as the empty one. */
  function ClassifyLine(line: Option<string>): (c: Command)
    ensures line.None? ==> c == Skip
    ensures c == Exit <==> EqualsIgnoreCase(Trim(line.GetOr("")), "exit")
    ensures c == Skip <==> IsBlank(line.GetOr(""))
    ensures c.Prompt? ==>
      c.text == Trim(line.GetOr("")) && c.text != [] &&
      !IsWhitespace(c.text[0]) && !IsWhitespace(c.text[|c.text| - 1])
  {
    var prompt := Trim(line.GetOr(""));
    BlankIffTrimEmpty(line.GetOr(""));
    BlankIffTrimEmpty(prompt);
    TrimIdempotent(line.GetOr(""));
    if EqualsIgnoreCase(prompt, "exit") then Exit
    else if IsBlank(prompt) then Skip
    else Prompt(prompt)
  }

  /** How the session ended: the `exit` command, the end of the given lines,
      or an exception that left the loop. */
  datatype End = ExitCommand | EndOfInput | Crashed(failure: Failure)

  /** The turns run, in order, and how the session ended. */
  datatype Session = Session(turns: seq<Turn>, end: End)

  /** The commands for a sequence of input lines, one per line. */
  function ReadCommands(lines: seq<Option<string>>): (commands: seq<Command>)
    ensures |commands| == |lines|
    ensures forall i :: 0 <= i < |lines| ==> commands[i] == ClassifyLine(lines[i])
  {
    seq(|lines|, i requires 0 <= i < |lines| => ClassifyLine(lines[i]))
  }

  /** The prompts before the first `exit`, in order. */
  function Prompts(commands: seq<Command>): seq<string>
    decreases |commands|
  {
    if |commands| == 0 then []
    else match commands[0]
      case Exit => []
      case Skip => Prompts(commands[1..])
      case Prompt(prompt) => [prompt] + Prompts(commands[1..])
  }

  /** The `while (true)` loop over a sequence of commands, with `runTurn`
      standing for the loop body. The turns are those of the prompts before
      the first `exit`, in order, stopping early only at a turn that was
      aborted: the session crashed exactly then, with that turn's exception. */
  function RunCommands(runTurn: string -> Turn, commands: seq<Command>): (s: Session)
    ensures |s.turns| <= |Prompts(commands)|
    ensures forall i :: 0 <= i < |s.turns| ==> s.turns[i] == runTurn(Prompts(commands)[i])
    ensures forall i :: 0 <= i < |s.turns| - 1 ==> !s.turns[i].outcome.Aborted?
    ensures s.end.Crashed? <==> |s.turns| > 0 && s.turns[|s.turns| - 1].outcome.Aborted?
    ensures s.end.Crashed? ==> s.end.failure == s.turns[|s.turns| - 1].outcome.failure
    ensures !s.end.Crashed? ==> |s.turns| == |Prompts(commands)|
    decreases |commands|
  {
    if |commands| == 0 then Session([], EndOfInput)
    else match commands[0]
      case Exit => Session([], ExitCommand)
      case Skip => RunCommands(runTurn, commands[1..])
      case Prompt(prompt) =>
        var turn := runTurn(prompt);
        if turn.outcome.Aborted? then Session([turn], Crashed(turn.outcome.failure))
        else
          var rest := RunCommands(runTurn, commands[1..]);
          Session([turn] + rest.turns, rest.end)
  }

  /** The session for the lines a user types, each prompt running one turn
      through `call`. `environment` is the value of `OPENAI_MODEL`, if set:
      every request of every turn names the model it configures. */
  function RunSession(call: Caller, environment: Option<string>, lines: seq<Option<string>>): (s: Session)
    ensures |s.turns| <= |Prompts(ReadCommands(lines))|
    ensures forall i :: 0 <= i < |s.turns| ==>
      s.turns[i] == RunTurn(call, ModelName(environment), Prompts(ReadCommands(lines))[i])
    ensures forall i, j :: 0 <= i < |s.turns| && 0 <= j < |s.turns[i].requests| ==>
      s.turns[i].requests[j].model == ModelName(environment)
    ensures s.end.Crashed? <==> |s.turns| > 0 && s.turns[|s.turns| - 1].outcome.Aborted?
    ensures !s.end.Crashed? ==> |s.turns| == |Prompts(ReadCommands(lines))|
  {
    var model := ModelName(environment);
    RunCommands(prompt => RunTurn(call, model, prompt), ReadCommands(lines))
  }

  /** The commands without the skipped lines. */
  function WithoutSkips(commands: seq<Command>): (kept: seq<Command>)
    ensures forall i :: 0 <= i < |kept| ==> !kept[i].Skip?
    decreases |commands|
  {
    if |commands| == 0 then []
    else if commands[0].Skip? then WithoutSkips(commands[1..])
    else [commands[0]] + WithoutSkips(commands[1..])
  }

  /** Blank and missing lines never trigger a request: removing them leaves
      the session unchanged. */
  lemma {:induction false} SkipsChangeNothing(runTurn: string -> Turn, commands: seq<Command>)
    ensures RunCommands(runTurn, WithoutSkips(commands)) == RunCommands(runTurn, commands)
    decreases |commands|
  {
    if |commands| > 0 {
      SkipsChangeNothing(runTurn, commands[1..]);
      if !commands[0].Skip? {
        var kept := WithoutSkips(commands);
        assert kept[0] == commands[0] && kept[1..] == WithoutSkips(commands[1..]);
      }
    }
  }

  /** Nothing after the first `exit` is read: the session is the one for the
      commands up to and including it, and it ends by the command or a crash. */
  lemma {:induction false} ExitEndsSession(runTurn: string -> Turn, commands: seq<Command>, k: nat)
    requires k < |commands| && commands[k] == Exit
    ensures RunCommands(runTurn, commands) == RunCommands(runTurn, commands[..k + 1])
    ensures RunCommands(runTurn, commands).end != EndOfInput
    decreases k
  {
    var prefix := commands[..k + 1];
    assert prefix[0] == commands[0];
    if k > 0 {
      assert prefix[1..] == commands[1..][..k];
      ExitEndsSession(runTurn, commands[1..], k - 1);
    }
  }

  /** A word between whitespace-only padding trims to the word. */
  lemma TrimPadded(a: string, w: string, b: string)
    requires IsBlank(a) && IsBlank(b)
    requires w != [] && !IsWhitespace(w[0]) && !IsWhitespace(w[|w| - 1])
    ensures Trim(a + w + b) == w
  {
    var s := a + w + b;
    assert s[..|a|] == a && s[|a| + |w|..] == b && s[|a|..|a| + |w|] == w;
    assert s[|a|] == w[0] && s[|a| + |w| - 1] == w[|w| - 1];
    TrimIsSlice(s, |a|, |a| + |w|);
  }

  /** `exit` in any letter case, padded with whitespace on either side, stops the loop. */
  lemma ExitInAnyCase(a: string, w: string, b: string)
    requires IsBlank(a) && IsBlank(b) && EqualsIgnoreCase(w, "exit")
    ensures ClassifyLine(Some(a + w + b)) == Exit
  {
    assert FoldCase(w[0]) == 'e' && FoldCase(w[3]) == 't';
    TrimPadded(a, w, b);
  }

  /** A line that is exactly a spelling of `exit` (`exit`, `Exit`, `EXIT`, ...) stops the loop. */
  lemma ExitWord(w: string)
    requires EqualsIgnoreCase(w, "exit")
    ensures ClassifyLine(Some(w)) == Exit
  {
    assert "" + w + "" == w;
    ExitInAnyCase("", w, "");
  }

  /** A missing line and a whitespace-only line are skipped. */
  lemma MissingAndBlankLinesSkipped()
    ensures ClassifyLine(None) == Skip
    ensures ClassifyLine(Some(" \t ")) == Skip
  {
    assert IsBlank(" \t ");
  }
}

=== FILE: sweep.dfy ===
/** One turn of the client: the temperature sweep, the unsupported-temperature
    gate, and the analysis call that compares the three answers. */
module Sweep {
  import opened Wrappers
  import opened Text
  import opened Extract
  import opened Request

  /** The sweep temperatures, in the order they are requested and shown. */
  const Temperatures: seq<Temperature> := [Temperature("0.0"), Temperature("0.7"), Temperature("1.2")]
  const SweepMaxOutputTokens := 500

  const AnalysisTemperature := Temperature("0.0")
  const AnalysisMaxOutputTokens := 700

  /** The text by which the API reports that the model rejects `temperature`. */
  const UnsupportedTemperatureMarker := "Unsupported parameter: 'temperature'"

  /** The fixed instructions of the analysis call, after `trimIndent`. */
  const AnalysisInstructions :=
    "Ты сравниваешь ответы одной и той же LLM при разных температурах.\n" +
    "Нужен короткий отчет на русском языке.\n" +
    "\n" +
    "Формат:\n" +
    "1) Точность: сравни ответы между собой, отметь, где больше риск фактических ошибок.\n" +
    "2) Креативность: укажи, какой ответ самый творческий и почему.\n" +
    "3) Разнообразие: оцени насколько ответы отличаются по структуре/формулировкам.\n" +
    "4) Для каких задач лучше:\n" +
    "- temperature=0\n" +
    "- temperature=0.7\n" +
    "- temperature=1.2\n" +
    "\n" +
    "Пиши конкретно и коротко."

  /** `requestResponse` as the orchestration sees it: the extracted text for a
      request, or the exception the call raised. */
  type Caller = CompletionRequest -> Result<string, Failure>

  /** The caller that sends through `requester` and extracts the reply. */
  function CallThrough(requester: Requester): Caller {
    r => RequestResponse(requester, r)
  }

  /** The answer obtained at one temperature. */
  datatype TemperatureResult = TemperatureResult(temperature: Temperature, response: string)

  /** A sweep call: the prompt as input, no instructions, the given
      temperature and at most 500 output tokens. */
  function SweepRequest(model: string, prompt: string, t: Temperature): CompletionRequest {
    CompletionRequest(model, prompt, None, Some(t), Some(SweepMaxOutputTokens))
  }

  /** `isUnsupportedTemperatureError`: the marker occurs in the text, ignoring case. */
  function IsUnsupportedTemperatureError(text: string): (b: bool)
    ensures b <==> ContainsIgnoreCase(text, UnsupportedTemperatureMarker)
  {
    IndexOfFindsOccurrence(text, UnsupportedTemperatureMarker);
    IndexOfIgnoreCase(text, UnsupportedTemperatureMarker, 0) != -1
  }

  /** Some result trips the detector. */
  predicate AnyUnsupported(results: seq<TemperatureResult>) {
    exists i :: 0 <= i < |results| && IsUnsupportedTemperatureError(results[i].response)
  }

  /** The block one result contributes to the analysis input. */
  function ResultBlock(r: TemperatureResult): string {
    "temperature=" + r.temperature.decimal + "\n" + r.response + "\n" + "---\n"
  }

  /** `packedResults`: the results' blocks, in order. */
  function PackResults(results: seq<TemperatureResult>): string {
    Join(results, ResultBlock)
  }

  /** The packed text is the blocks of the results one after another, in
      sweep order, each ending with the `---` separator line. */
  lemma PackThreeResults(r0: TemperatureResult, r1: TemperatureResult, r2: TemperatureResult)
    ensures PackResults([r0, r1, r2]) == ResultBlock(r0) + ResultBlock(r1) + ResultBlock(r2)
    ensures forall r :: r in [r0, r1, r2] ==> ResultBlock(r)[|ResultBlock(r)| - 4..] == "---\n"
  {
    JoinOne(r0, ResultBlock);
    JoinOne(r1, ResultBlock);
    JoinOne(r2, ResultBlock);
    JoinAppend([r0], [r1], ResultBlock);
    JoinAppend([r0, r1], [r2], ResultBlock);
    assert [r0] + [r1] == [r0, r1];
    assert [r0, r1] + [r2] == [r0, r1, r2];
  }

  /** The `input` of the analysis call: the prompt and the packed results
      under their headings. */
  function AnalysisInput(prompt: string, results: seq<TemperatureResult>): string {
    "Исходный запрос:\n" + prompt + "\n\nОтветы:\n" + PackResults(results)
  }

  /** The analysis call: fixed instructions, temperature 0.0, at most 700 output tokens. */
  function AnalysisRequest(model: string, prompt: string, results: seq<TemperatureResult>): CompletionRequest {
    CompletionRequest(model, AnalysisInput(prompt, results), Some(AnalysisInstructions),
                      Some(AnalysisTemperature), Some(AnalysisMaxOutputTokens))
  }

  /** The calls a sweep issued, the results it collected, and the exception
      that stopped it, if one did. */
  datatype SweepRun = SweepRun(requests: seq<CompletionRequest>, results: seq<TemperatureResult>, failure: Option<Failure>)

  /** `temperatures.map { requestResponse(...) }`: one call per temperature,
      in order; an exception stops the sweep at the call that raised it. */
  function RunSweep(call: Caller, model: string, prompt: string, temps: seq<Temperature>): (s: SweepRun)
    ensures |s.results| <= |s.requests| <= |temps|
    ensures s.failure.None? ==> |s.results| == |s.requests| == |temps|
    ensures s.failure.Some? ==>
      |s.requests| == |s.results| + 1 && call(s.requests[|s.results|]) == Failure(s.failure.value)
    ensures forall i :: 0 <= i < |s.requests| ==> s.requests[i] == SweepRequest(model, prompt, temps[i])
    ensures forall i :: 0 <= i < |s.results| ==>
      s.results[i].temperature == temps[i] &&
      call(s.requests[i]) == Success(s.results[i].response)
    decreases |temps|
  {
    if |temps| == 0 then SweepRun([], [], None)
    else
      var request := SweepRequest(model, prompt, temps[0]);
      match call(request)
      case Failure(e) => SweepRun([request], [], Some(e))
      case Success(text) =>
        var rest := RunSweep(call, model, prompt, temps[1..]);
        SweepRun([request] + rest.requests, [TemperatureResult(temps[0], text)] + rest.results, rest.failure)
  }

  /** How a turn ended. `Aborted` is an exception that leaves the loop. */
  datatype Outcome =
    | Aborted(failure: Failure)
    | TemperatureUnsupported(results: seq<TemperatureResult>)
    | Analysed(results: seq<TemperatureResult>, analysis: string)

  /** One turn: the prompt, every call issued for it in order, and how it ended. */
  datatype Turn = Turn(prompt: string, requests: seq<CompletionRequest>, outcome: Outcome)

  /** The body of the loop for one prompt: sweep, then either stop at the
      gate or issue the analysis call. */
  function RunTurn(call: Caller, model: string, prompt: string): (t: Turn)
    ensures t.prompt == prompt
    ensures 1 <= |t.requests| <= 4
    ensures forall i :: 0 <= i < |t.requests| ==> t.requests[i].model == model
    ensures forall i :: 0 <= i < |t.requests| && i < 3 ==>
      t.requests[i] == SweepRequest(model, prompt, Temperatures[i])
    ensures !t.outcome.Aborted? ==>
      |t.requests| >= 3 && |t.outcome.results| == 3 &&
      forall i :: 0 <= i < 3 ==>
        t.outcome.results[i].temperature == Temperatures[i] &&
        call(t.requests[i]) == Success(t.outcome.results[i].response)
    ensures t.outcome.TemperatureUnsupported? ==> |t.requests| == 3 && AnyUnsupported(t.outcome.results)
    ensures t.outcome.Analysed? ==>
      |t.requests| == 4 && !AnyUnsupported(t.outcome.results) &&
      t.requests[3] == AnalysisRequest(model, prompt, t.outcome.results) &&
      call(t.requests[3]) == Success(t.outcome.analysis)
    ensures t.outcome.Aborted? ==>
      call(t.requests[|t.requests| - 1]) == Failure(t.outcome.failure)
    ensures t.outcome.Aborted? ==> forall i :: 0 <= i < |t.requests| - 1 ==> call(t.requests[i]).Success?
    ensures |t.requests| == 4 ==>
      var sweep := RunSweep(call, model, prompt, Temperatures);
      sweep.failure.None? && !AnyUnsupported(sweep.results) &&
      t.requests[3] == AnalysisRequest(model, prompt, sweep.results)
  {
    var sweep := RunSweep(call, model, prompt, Temperatures);
    if sweep.failure.Some? then Turn(prompt, sweep.requests, Aborted(sweep.failure.value))
    else if AnyUnsupported(sweep.results) then Turn(prompt, sweep.requests, TemperatureUnsupported(sweep.results))
    else
      var analysisRequest := AnalysisRequest(model, prompt, sweep.results);
      var requests := sweep.requests + [analysisRequest];
      match call(analysisRequest)
      case Failure(e) => Turn(prompt, requests, Aborted(e))
      case Success(analysis) => Turn(prompt, requests, Analysed(sweep.results, analysis))
  }

  /** When the three sweep calls return text, the analysis call is issued if
      and only if none of the three texts contains the marker, in any case. */
  lemma AnalysisIssuedIffTemperatureSupported(call: Caller, model: string, prompt: string)
    requires forall i :: 0 <= i < 3 ==>
      call(SweepRequest(model, prompt, Temperatures[i])).Success?
    ensures |RunTurn(call, model, prompt).requests| == 4 <==>
      forall i :: 0 <= i < 3 ==> !ContainsIgnoreCase(
        call(SweepRequest(model, prompt, Temperatures[i])).value,
        UnsupportedTemperatureMarker)
  {
    var sweep := RunSweep(call, model, prompt, Temperatures);
    assert forall i :: 0 <= i < |sweep.requests| ==> call(sweep.requests[i]).Success?;
    assert sweep.failure.None?;
    assert forall i :: 0 <= i < 3 ==>
      sweep.results[i].response == call(SweepRequest(model, prompt, Temperatures[i])).value;
  }
}

=== FILE: text.dfy ===
/** The string primitives the client relies on: `isBlank`, `trim`,
    case-insensitive comparison and search, and decimal formatting of integers. */
module Text {
  import opened Wrappers

  /** Kotlin's `Char.isWhitespace` on the JVM: the control characters
      TAB, LF, VT, FF, CR and U+001C..U+001F, plus the Unicode space,
      line and paragraph separators. */
  predicate IsWhitespace(c: char) {
    || ('\t' <= c <= '\r')
    || ('\U{001C}' <= c <= '\U{001F}')
    || c == ' ' || c == '\U{00A0}' || c == '\U{1680}'
    || ('\U{2000}' <= c <= '\U{200A}')
    || c == '\U{2028}' || c == '\U{2029}' || c == '\U{202F}'
    || c == '\U{205F}' || c == '\U{3000}'
  }

  /** `isBlank()`: empty or whitespace only. */
  predicate IsBlank(s: string) {
    forall i :: 0 <= i < |s| ==> IsWhitespace(s[i])
  }

  /** Kotlin's `isNullOrBlank()`. */
  predicate IsNullOrBlank(s: Option<string>) {
    s.None? || IsBlank(s.value)
  }

  /** Number of whitespace characters at the start of `s`. */
  function LeadingWhitespace(s: string): (n: nat)
    ensures n <= |s|
    ensures IsBlank(s[..n])
    ensures n < |s| ==> !IsWhitespace(s[n])
  {
    if |s| == 0 || !IsWhitespace(s[0]) then 0
    else
      var n := 1 + LeadingWhitespace(s[1..]);
      assert s[..n] == [s[0]] + s[1..][..n - 1];
      n
  }

  /** Number of whitespace characters at the end of `s`. */
  function TrailingWhitespace(s: string): (n: nat)
    ensures n <= |s|
    ensures IsBlank(s[|s| - n..])
    ensures n < |s| ==> !IsWhitespace(s[|s| - n - 1])
  {
    if |s| == 0 || !IsWhitespace(s[|s| - 1]) then 0
    else
      var init := s[..|s| - 1];
      var n := 1 + TrailingWhitespace(init);
      assert s[|s| - n..] == init[|init| - (n - 1)..] + [s[|s| - 1]];
      n
  }

  /** `trim()`: `s` without its leading and trailing whitespace. The result is
      the slice of `s` that starts at the first non-whitespace character and
      is followed only by whitespace, and it neither starts nor ends with
      whitespace. */
  function Trim(s: string): (r: string)
    ensures LeadingWhitespace(s) + |r| <= |s|
    ensures r == s[LeadingWhitespace(s)..LeadingWhitespace(s) + |r|]
    ensures IsBlank(s[LeadingWhitespace(s) + |r|..])
    ensures r != [] ==> !IsWhitespace(r[0]) && !IsWhitespace(r[|r| - 1])
  {
    var start := LeadingWhitespace(s);
    var rest := s[start..];
    var n := TrailingWhitespace(rest);
    var r := rest[..|rest| - n];
    assert r == s[start..start + |r|];
    assert s[start + |r|..] == rest[|rest| - n..];
    assert r != [] ==> r[0] == s[start] && r[|r| - 1] == rest[|rest| - n - 1];
    r
  }

  /** A string that starts with a non-whitespace character is not blank,
      whatever follows it. */
  lemma NotBlankAfter(p: string, rest: string)
    requires p != [] && !IsWhitespace(p[0])
    ensures !IsBlank(p + rest)
  {
    assert (p + rest)[0] == p[0];
  }

  /** `LeadingWhitespace` is the one length whose prefix is blank and which
      stops at a non-whitespace character or the end. */
  lemma {:induction false} LeadingWhitespaceUnique(s: string, n: nat)
    requires n <= |s| && IsBlank(s[..n])
    requires n < |s| ==> !IsWhitespace(s[n])
    ensures LeadingWhitespace(s) == n
    decreases n
  {
    if n > 0 {
      assert s[..n][0] == s[0];
      assert s[1..][..n - 1] == s[1..n];
      assert forall i :: 0 <= i < n - 1 ==> s[1..n][i] == s[..n][i + 1];
      LeadingWhitespaceUnique(s[1..], n - 1);
    }
  }

  /** Likewise for `TrailingWhitespace`. */
  lemma {:induction false} TrailingWhitespaceUnique(s: string, n: nat)
    requires n <= |s| && IsBlank(s[|s| - n..])
    requires n < |s| ==> !IsWhitespace(s[|s| - n - 1])
    ensures TrailingWhitespace(s) == n
    decreases n
  {
    if n > 0 {
      var init := s[..|s| - 1];
      assert s[|s| - n..][n - 1] == s[|s| - 1];
      assert init[|init| - (n - 1)..] == s[|s| - n..|s| - 1];
      var suffix, inner := s[|s| - n..], s[|s| - n..|s| - 1];
      assert forall i :: 0 <= i < |inner| ==> inner[i] == suffix[i];
      TrailingWhitespaceUnique(init, n - 1);
    }
  }

  /** A slice that starts and ends with non-whitespace and is surrounded by
      whitespace only is what trimming returns. */
  lemma TrimIsSlice(s: string, i: nat, j: nat)
    requires i < j <= |s|
    requires IsBlank(s[..i]) && IsBlank(s[j..])
    requires !IsWhitespace(s[i]) && !IsWhitespace(s[j - 1])
    ensures Trim(s) == s[i..j]
  {
    LeadingWhitespaceUnique(s, i);
    var rest := s[i..];
    assert rest[|rest| - (|s| - j)..] == s[j..];
    assert rest[|rest| - (|s| - j) - 1] == s[j - 1];
    TrailingWhitespaceUnique(rest, |s| - j);
    assert rest[..j - i] == s[i..j];
  }

  /** A string is blank exactly when trimming leaves nothing. */
  lemma BlankIffTrimEmpty(s: string)
    ensures IsBlank(s) <==> Trim(s) == []
  {
    var start := LeadingWhitespace(s);
    assert start < |s| ==> s[start..][0] == s[start];
    assert start == |s| ==> s[..start] == s;
  }

  /** Trimming twice is trimming once. */
  lemma TrimIdempotent(s: string)
    ensures Trim(Trim(s)) == Trim(s)
  {
    var r := Trim(s);
    if r != [] {
      assert LeadingWhitespace(r) == 0;
      assert TrailingWhitespace(r) == 0;
    }
  }

  /** ASCII case folding: upper-case Latin letters to lower case. */
  function FoldCase(c: char): (d: char)
    ensures 'A' <= c <= 'Z' ==> 'a' <= d <= 'z'
    ensures !('A' <= c <= 'Z') ==> d == c
  {
    if 'A' <= c <= 'Z' then (c as int + ('a' as int - 'A' as int)) as char else c
  }

  /** `a.equals(b, ignoreCase = true)` under ASCII case folding. */
  predicate EqualsIgnoreCase(a: string, b: string) {
    |a| == |b| && forall i :: 0 <= i < |a| ==> FoldCase(a[i]) == FoldCase(b[i])
  }

  /** `pattern` occurs in `text` at `at`, ignoring case. */
  predicate MatchesAt(text: string, pattern: string, at: nat) {
    at + |pattern| <= |text| && EqualsIgnoreCase(text[at..at + |pattern|], pattern)
  }

  /** `text.contains(pattern, ignoreCase = true)`. */
  predicate ContainsIgnoreCase(text: string, pattern: string) {
    exists at: nat :: at + |pattern| <= |text| && MatchesAt(text, pattern, at)
  }

  /** `text.indexOf(pattern, from, ignoreCase = true)`: the first position at
      or after `from` where `pattern` occurs, or -1 when there is none. */
  function IndexOfIgnoreCase(text: string, pattern: string, from: nat): (r: int)
    ensures r == -1 || (from <= r && MatchesAt(text, pattern, r))
    ensures r == -1 ==> forall at: nat :: from <= at ==> !MatchesAt(text, pattern, at)
    ensures r != -1 ==> forall at: nat :: from <= at < r ==> !MatchesAt(text, pattern, at)
    decreases |text| - from
  {
    if from + |pattern| > |text| then -1
    else if MatchesAt(text, pattern, from) then from
    else IndexOfIgnoreCase(text, pattern, from + 1)
  }

  /** Searching from the start finds a match exactly when the pattern occurs. */
  lemma IndexOfFindsOccurrence(text: string, pattern: string)
    ensures IndexOfIgnoreCase(text, pattern, 0) != -1 <==> ContainsIgnoreCase(text, pattern)
  {
    var r := IndexOfIgnoreCase(text, pattern, 0);
    if r != -1 {
      var at: nat := r;
      assert at + |pattern| <= |text| && MatchesAt(text, pattern, at);
    }
  }

  /** Changing the case of letters in the text does not change whether the
      pattern occurs in it. */
  lemma ContainsIgnoresCase(text: string, other: string, pattern: string)
    requires EqualsIgnoreCase(text, other)
    ensures ContainsIgnoreCase(text, pattern) <==> ContainsIgnoreCase(other, pattern)
  {
    forall at: nat | at + |pattern| <= |text|
      ensures MatchesAt(text, pattern, at) <==> MatchesAt(other, pattern, at)
    {
      var t, o := text[at..at + |pattern|], other[at..at + |pattern|];
      forall i | 0 <= i < |t| ensures FoldCase(t[i]) == FoldCase(o[i]) {
        assert t[i] == text[at + i] && o[i] == other[at + i];
      }
    }
  }

  /** The texts `f` gives for the elements of `xs`, one after another with no separator. */
  function Join<T>(xs: seq<T>, f: T -> string): string
    decreases |xs|
  {
    if |xs| == 0 then ""
    else Join(xs[..|xs| - 1], f) + f(xs[|xs| - 1])
  }

  /** Joining two runs of elements is joining each and concatenating the texts. */
  lemma {:induction false} JoinAppend<T>(a: seq<T>, b: seq<T>, f: T -> string)
    ensures Join(a + b, f) == Join(a, f) + Join(b, f)
    decreases |b|
  {
    if |b| == 0 {
      assert a + b == a;
      assert Join(a, f) + "" == Join(a, f);
    } else {
      var init, last := b[..|b| - 1], b[|b| - 1];
      var ab := a + b;
      assert ab[..|ab| - 1] == a + init;
      assert ab[|ab| - 1] == last;
      JoinAppend(a, init, f);
      var x, y, z := Join(a, f), Join(init, f), f(last);
      assert Join(ab, f) == (x + y) + z;
      assert (x + y) + z == x + (y + z);
    }
  }

  /** Joining one element gives its text. */
  lemma JoinOne<T>(x: T, f: T -> string)
    ensures Join([x], f) == f(x)
  {
    assert [x][..0] == [];
    assert "" + f(x) == f(x);
  }

  /** The decimal digit for `d`. */
  function Digit(d: nat): char
    requires d < 10
  {
    ('0' as int + d) as char
  }

  predicate IsDigit(c: char) {
    '0' <= c <= '9'
  }

  predicate AllDigits(s: string) {
    forall i :: 0 <= i < |s| ==> IsDigit(s[i])
  }

  /** Decimal text of a natural number, as `Int.toString` writes it. */
  function NatToString(n: nat): (s: string)
    ensures |s| >= 1 && AllDigits(s)
    ensures |s| > 1 ==> s[0] != '0'
  {
    if n < 10 then [Digit(n)]
    else NatToString(n / 10) + [Digit(n % 10)]
  }

  /** The value of a string of decimal digits. */
  function DigitsValue(s: string): nat
    requires AllDigits(s)
  {
    if |s| == 0 then 0
    else 10 * DigitsValue(s[..|s| - 1]) + (s[|s| - 1] as int - '0' as int)
  }

  /** Decimal text of an integer, with a leading minus sign when negative. */
  function IntToString(i: int): (s: string)
    ensures |s| >= 1
    ensures i < 0 <==> s[0] == '-'
  {
    if i < 0 then "-" + NatToString(-i) else NatToString(i)
  }

  /** Reads an integer literal written as an optional minus sign followed by digits. */
  function ParseInt(s: string): Option<int> {
    if |s| > 1 && s[0] == '-' && AllDigits(s[1..]) then
      var d: int := DigitsValue(s[1..]);
      Some(-d)
    else if |s| > 0 && AllDigits(s) then Some(DigitsValue(s))
    else None
  }

  /** Reading back the decimal text of a natural number gives the number. */
  lemma {:induction false} DigitsValueOfNatToString(n: nat)
    ensures DigitsValue(NatToString(n)) == n
  {
    if n >= 10 {
      var s := NatToString(n);
      assert s[..|s| - 1] == NatToString(n / 10);
      DigitsValueOfNatToString(n / 10);
    }
  }

  /** Integer formatting and `ParseInt` are inverse. */
  lemma ParseIntToString(i: int)
    ensures ParseInt(IntToString(i)) == Some(i)
  {
    if i < 0 {
      assert IntToString(i)[1..] == NatToString(-i);
      DigitsValueOfNatToString(-i);
    } else {
      DigitsValueOfNatToString(i);
    }
  }
}

=== FILE: wrappers.dfy ===
/** The optional values and results used throughout the model. Failures are
    passed on by explicit `match`, as the client's exceptions propagate. */
module Wrappers {

  /** A value that may be absent: Kotlin's nullable `T?`. */
  datatype Option<+T> = None | Some(value: T) {

    /** Kotlin's `?:` with a default on the right, and `orEmpty()` for strings. */
    function GetOr(default: T): T {
      match this
      case Some(v) => v
      case None => default
    }
  }

  /** Either a value or the exception that stopped the computation. */
  datatype Result<+R, +E> = Success(value: R) | Failure(error: E)
}
